=== FILE: README.md ===
# Crowd-verified lowest price: a Dafny model

This project models the core of a browser extension plus edge worker that
keeps a crowd-verified "lowest observed price" per product.

* **Worker** (`cloudflare_worker/src/worker.js`). Each item of an `/ingest`
  batch goes through the same steps:
  * It is filtered.
  * It is appended to the report history.
  * Its trust is classified by counting the distinct reporter tokens that
    reported the same product at exactly the same price inside a trailing
    one-day window.
  * A conflict policy decides whether it replaces the product's current
    lowest-price record.
  * On acceptance, the product's cached lookup is deleted.

  `/lowest` is a read-through cache that caches only replies that carry a
  price. `/snapshot` lists every record.
* **Background process** (`extension/background.js`) has five parts:
  * `normalizePrice`.
  * The report-worthiness test `shouldEnqueue`.
  * The merge of the official and community lows into the displayed
    `effectiveLow` and its `source`.
  * The message handler.
  * The batched uploader. It is a FIFO queue with a debounce timer, sends
    at most 100 reports per request, and drops a batch whose send fails.
* **Product page** (`extension/content_product.js`) has two parts:
  * `formatPrice`, which puts thousands separators into the decimal text.
  * The choice of the notice shown for the background process's reply.

The modules follow the components:
* `Wrappers`: `Option`.
* `Anonymizer`: reporter tokens.
* `TrustWindow`: the one-day window. It also holds the finding below.
* `TrustScorer`: distinct-reporter counting.
* `PriceStore`: the record table and its conflict policy.
* `Worker`: the ingest, lookup and snapshot state machine over
  `State(store, history, cache)`.
* `Resolver`: the client's pure decisions.
* `Uploader`: the queue, with the flag `armed` and the event `TimerFire`.
* `Background`: the message handler.
* `Format`: `formatPrice`.
* `Content`: the notice.
* `Pipeline`: how client and worker fit together.

Modelling choices:
* Prices are integers. Time is integer seconds.
* The report history is a sequence. The record table and the cache are maps keyed by product identifier.
* Items are processed one at a time.
* The flush takes its batch off the queue before its first `await`, so each
  uploader step is atomic.

Modelling notes on behaviour that is easy to misread in the code:
* The displayed low is the smaller of the official and community lows, not
  the community low alone. The official source is a stub that always
  returns null (`Background.OfficialStub`).
* The ingest `count` is the number of items that passed the filter, whether
  the policy accepted them or not.
* The trust window has a strict lower bound and no upper bound.
* The policy is a plain read-decide-write sequence. It is modelled
  sequentially, not as an atomic conditional write.

## Model

| member | source | states |
|---|---|---|
| Anonymizer.Identity | cloudflare_worker/src/worker.js:67 | The hashed identity is never empty: the connecting address when present and non-empty, otherwise the sentinel "0.0.0.0". |
| Anonymizer.AddresslessReportersShareToken | cloudflare_worker/src/worker.js:67-70 | Requests with no address or an empty address get the same token as a real "0.0.0.0" reporter, so they can never corroborate each other. |
| Anonymizer.TokensDistinguishAddresses | cloudflare_worker/src/worker.js:67-70 | With a collision-free digest, two addresses yield the same salted token exactly when they are equal. |
| TrustWindow.AsWrittenComparesDates | cloudflare_worker/src/worker.js:87-90 | Comparing the stored ISO text with the SQL cutoff text reduces to comparing calendar dates. |
| TrustWindow.AsWrittenWidensWindow | cloudflare_worker/src/worker.js:87-90 | Every report inside the intended 24-hour window is also counted by the comparison as written. |
| TrustWindow.StaleReportCountsAsWritten | cloudflare_worker/src/worker.js:87-90 | A report 25 hours old is counted as written, though it is outside the 24-hour window. |
| TrustWindow.AsWrittenReachesTwoDays | cloudflare_worker/src/worker.js:87-90 | As written, a past report counts for less than two days. |
| TrustWindow.InWindowIsTrailingDay | cloudflare_worker/src/worker.js:87-90 | With the corrected window, a past report counts exactly when it is less than one day old. |
| TrustScorer.CorroboratorsExact | cloudflare_worker/src/worker.js:87-90 | A token is counted iff some history row has that token, the same product, exactly the same price and a time inside the window. |
| TrustScorer.Classify | cloudflare_worker/src/worker.js:87-93 | Trust is Trusted iff at least two distinct tokens are counted. A zero count is read as one, so it is Unverified. |
| TrustScorer.OwnReportCounts | cloudflare_worker/src/worker.js:81-92 | The row written just before classification counts toward its own total, so the count is at least one. |
| TrustScorer.LoneReporterUnverified | cloudflare_worker/src/worker.js:81-93 | When every matching row comes from the reporting token, the report is Unverified however many rows there are. |
| TrustScorer.RepeatNeverRaisesTrust | cloudflare_worker/src/worker.js:87-93 | Another report from a token already counted leaves the classification unchanged. |
| TrustScorer.SecondReporterTrusted | cloudflare_worker/src/worker.js:87-93 | A report at a price that a different token reported inside the window is Trusted. |
| TrustScorer.NonMatchingReportIgnored | cloudflare_worker/src/worker.js:87-93 | A row for another product, another price or outside the window changes neither the count nor the classification. |
| PriceStore.ShouldUpdate | cloudflare_worker/src/worker.js:101-110 | With no record, accept. Otherwise accept exactly when the new (price, trust) pair is at least as good in the price-then-trust order and differs from the stored pair. |
| PriceStore.Upsert | cloudflare_worker/src/worker.js:101-120 | An accepted pair sets the record to exactly (price, trust, now); a rejected one changes nothing. The product always has a record afterwards, at least as good as both the old record and the offered pair. Other products keep their records. |
| PriceStore.ReplayIsNoOp | cloudflare_worker/src/worker.js:103-110 | Offering the pair the record already holds leaves the table unchanged. |
| PriceStore.TrustedRecordIsFinalAtItsPrice | cloudflare_worker/src/worker.js:103-110 | Once the record is Trusted, another report at that price never changes it. |
| Worker.PayloadOf | cloudflare_worker/src/worker.js:44-50 | The lookup body carries the record's price, trust and time. For an unknown product all three are null. |
| Worker.IngestItem | cloudflare_worker/src/worker.js:75-127 | A filtered-out item changes nothing. An admitted item appends exactly one history row. On acceptance the record becomes (price, trust, now) and only that product's cache entry is deleted. Otherwise the table and cache are unchanged. |
| Worker.Ingest | cloudflare_worker/src/worker.js:73-131 | The history grows by one row per admitted item, in batch order. The count equals the number of admitted items, accepted or not. |
| Worker.ReportsCarryToken | cloudflare_worker/src/worker.js:67-83 | Every history row a request appends carries that request's reporter token and its time. |
| Worker.Serve | cloudflare_worker/src/worker.js:63-131 | Requests are served in order. The history gains exactly the admitted items of each request, request after request, each row carrying the token digested from that request's own address header and that request's time; the old history is a prefix of the new one. |
| Worker.Lookup | cloudflare_worker/src/worker.js:33-59 | A missing or empty identifier is refused without a state change. A cache hit returns the cached reply and changes nothing. A miss replies with the table's body, and caches it exactly when its price is truthy. A lookup never changes the table or history, never alters an existing cache entry, and adds an entry only for the looked-up product. |
| Worker.Snapshot | cloudflare_worker/src/worker.js:16-26 | The snapshot has exactly the products that have a record, each with its price and wire trust code. |
| Worker.IngestItemPreservesValid | cloudflare_worker/src/worker.js:112-126 | Ingesting an item keeps every cached reply equal to the table's current answer and every stored price above 10. |
| Worker.IngestPreservesValid | cloudflare_worker/src/worker.js:75-129 | A whole batch keeps the cache coherent and the stored prices above the floor. |
| Worker.LookupPreservesValid | cloudflare_worker/src/worker.js:37-58 | A lookup keeps the cache coherent. |
| Worker.LookupReadsThrough | cloudflare_worker/src/worker.js:37-58 | On a coherent state a lookup returns exactly the table's answer, whether or not the cache is hit. |
| Worker.UnknownProductNotCached | cloudflare_worker/src/worker.js:48-58 | Looking up a product with no record returns all-null fields and caches nothing. |
| Worker.LookupAfterAcceptedUpdate | cloudflare_worker/src/worker.js:112-126 | After an accepted update, the next lookup of that product returns the new record, never an earlier cached reply. |
| Worker.IngestItemMonotone | cloudflare_worker/src/worker.js:101-126 | One item leaves every existing record at least as good as before. It leaves other products' records and cache entries untouched. |
| Worker.IngestMonotone | cloudflare_worker/src/worker.js:75-129 | Across a batch no stored price increases. At an unchanged price, trust never goes from Trusted back to Unverified. |
| Worker.ServePreservesValid | cloudflare_worker/src/worker.js:63-131 | Over any sequence of ingestion requests the cache stays coherent and stored prices stay above the floor. |
| Worker.ServeMonotone | cloudflare_worker/src/worker.js:63-131 | Over any sequence of ingestion requests no stored price increases, and at an unchanged price trust never goes from Trusted back to Unverified. |
| Worker.ReingestCurrentIsNoOp | cloudflare_worker/src/worker.js:101-110 | Re-ingesting the current (price, trust) pair changes neither the table nor the cache. |
| Worker.SnapshotAgreesWithLookup | cloudflare_worker/src/worker.js:16-26 | Each snapshot entry agrees with what a lookup of that product returns. |
| Worker.Scenarios | cloudflare_worker/src/worker.js:75-127 | First report 500 gives (500, Unverified). A second reporter at 500 gives Trusted. 600 is rejected. 400 replaces the record with trust reset to Unverified. |
| Resolver.NormalizePrice | extension/background.js:14-18 | null, undefined and non-finite values map to null; a number maps to itself. |
| Resolver.NormalizeRoundTrip | extension/background.js:14-18 | A normalised value passes through normalisation unchanged, so normalising twice equals normalising once. |
| Resolver.ShouldEnqueueIffBelowLowest | extension/background.js:46-61 | Report iff the price is present and either no low is known or it is strictly below the smaller known low. |
| Resolver.EqualPriceNeverEnqueued | extension/background.js:46-61 | A price equal to a known low is never reported, and neither is a missing price. |
| Resolver.Merge | extension/background.js:116-123 | The effective low is the smaller present low. The source is community exactly when the community low was taken, official when only the official low was used, and null exactly when both are absent. |
| Resolver.EnqueueAgreesWithDisplay | extension/background.js:116-125 | A price is reported exactly when it is strictly below the low shown to the user, or no low is shown. |
| Resolver.CommunityLow | extension/background.js:30-44 | With no base address, a network failure or an error status the result is null. Otherwise it is the reply's minPrice, or its min when minPrice is nullish. |
| Resolver.ClientScenario | extension/background.js:46-61 | 450 against a low of 500 is reported; 500 against 500 is not. |
| Uploader.IdleInv | extension/background.js:7-8 | The initial empty, unarmed uploader satisfies the invariant. |
| Uploader.Flush | extension/background.js:76-96 | The timer is disarmed. At most one request is sent, holding 1 to 100 items taken from the front of the queue and posted to base + "/ingest". With an address, sent items followed by what remains equal the old queue; without one the queue is dropped and nothing is sent. |
| Uploader.EnqueueItem | extension/background.js:63-74 | An empty base address changes nothing. Otherwise the address is recorded, and sent items plus pending items equal the old queue plus the new item. Below a full batch nothing is sent, the item is appended and the timer is armed; the item that fills the batch sends one request at once and disarms the timer. |
| Uploader.StepPreservesInv | extension/background.js:63-86 | From an idle start, after each enqueue or timer expiry the queue holds fewer than 100 items, and the timer is armed iff the queue is non-empty. |
| Uploader.StepConserves | extension/background.js:63-86 | Each step moves items only from the queue into sent requests, in order. |
| Uploader.Run | extension/background.js:63-96 | Over any event sequence, the concatenated sent batches followed by the remaining queue equal the enqueued items in order: none lost, duplicated or reordered. Every batch has 1 to 100 items. |
| Uploader.TimerDrainsQueue | extension/background.js:71-86 | A timer expiry sends the whole pending queue as one request and leaves the uploader empty and unarmed. |
| Uploader.FullQueueFlushesAtOnce | extension/background.js:66-70 | Enqueueing the 100th item sends all 100 at once and disarms the timer. |
| Background.PromoValue | extension/background.js:110 | The observed price is the page's override when that is not nullish, and otherwise one of the two inputs. It is nullish exactly when both the override and the official promo are nullish. |
| Background.CommunityFor | extension/background.js:111-114 | With community data disabled the community low is null. When enabled it is the result of the community fetch. |
| Background.HandleMessage | extension/background.js:98-147 | Messages that are not a getPrice request with a product identifier are ignored. A handled request replies with the official promo and low and the community low. The effective low is the smaller present low when community data is enabled, and the official low otherwise. The source is community exactly when the community low is present and strictly below any official low, and official when some other low is shown. The uploader changes only when the price is report-worthy, and then by exactly one enqueue of that report. |
| Background.ReplyShowsLowest | extension/background.js:116-123 | With the shipped settings, the reply's effective low is the smaller present low, and its source is community exactly when the community low was taken. |
| Background.QueuedReportIsWorthy | extension/background.js:125-131 | A queued report always carries a normalised price, strictly below the displayed low when one is displayed. |
| Background.NoPriceNoReport | extension/background.js:125-131 | With the official stub and a nullish page price, nothing is queued. |
| Background.HandlePreservesInv | extension/background.js:125-131 | Handling a request keeps the uploader invariant. |
| Format.Decimal | extension/content_product.js:145 | The decimal text of a non-negative integer is non-empty, digits only, with no leading zero. |
| Format.DecimalRoundTrip | extension/content_product.js:145 | Reading the decimal text back gives the number. |
| Format.InsertMatchesGrouping | extension/content_product.js:145 | Inserting commas wherever the separator expression matches equals splitting three digits at a time off the right. |
| Format.FormatSmallUnchanged | extension/content_product.js:144-146 | Below 1000, formatPrice returns the plain decimal digits. |
| Format.FormatStripsToDecimal | extension/content_product.js:144-146 | Removing all commas from formatPrice(n) gives the decimal text of n, which reads back as n. |
| Format.FormatWellGrouped | extension/content_product.js:145 | formatPrice(n) is a group of 1 to 3 digits followed by comma-led groups of exactly three, with no leading or trailing comma. |
| Format.FormatHasCommaIff | extension/content_product.js:145 | A comma appears exactly when n is at least 1000. |
| Format.FormatThousand | extension/content_product.js:143-146 | formatPrice(1000) is "1,000". |
| Format.FormatNumberStrips | extension/content_product.js:144-146 | For any integer, including negative ones, the formatted text without commas is the integer's own text. |
| Content.PriceNotice | extension/content_product.js:169-189 | A throw shows the error warning. A missing or non-ok reply shows the "cannot connect" warning. Only an ok reply gives an informational notice. |
| Content.NoticeShowsEffectiveLow | extension/content_product.js:174-182 | A null effective low shows the "no history" text. Otherwise the notice is the low-price prefix followed by a formatted number whose digits are exactly the effective low. |
| Content.ThousandNotice | extension/content_product.js:180-181 | An effective low of 1000 is shown as the prefix followed by "1,000". |
| Pipeline.ServerLowReachesClient | extension/background.js:36-40 | When the client's lookup reaches the worker, the community low it reads equals the stored lowest price, and is null exactly when the product has no record. |
| Pipeline.WorthyReportIsAccepted | cloudflare_worker/src/worker.js:101-110 | When the client's lookup reached the worker, a price the client reports, if it is above the floor, is always accepted by the worker's conflict policy. |
| Pipeline.UnworthyReportCannotLowerPrice | cloudflare_worker/src/worker.js:101-110 | A price the client declines to report leaves the stored price unchanged when ingested. |
| Pipeline.QueuedReportArrivesIntact | extension/background.js:125-131 | A queued report reaches the worker with its product and its normalised price intact. |
| Pipeline.EqualPriceUpgradeNeverSent | extension/background.js:56-60 | As written, after one reporter's 500 the record is (500, Unverified); the worker would accept a second reporter's 500 as the upgrade to Trusted, yet a client reading that record declines to send it. |
| Pipeline.CorrectedClientSendsEveryAcceptable | cloudflare_worker/src/worker.js:96-110 | With the corrected client test, every report above the floor that the conflict policy would accept, the equal-price trust upgrade included, is sent by a client whose lookup reached the worker. |
| Pipeline.CorrectedNeverSendsHigher | extension/background.js:50-60 | The corrected test still sends only present prices, never above a known official or community low. |

## Left out

- HTTP plumbing: routing, CORS headers, `OPTIONS`, `/health`, JSON parsing of the ingest body, the 400 and 404 responses, and `Cache-Control` header strings. A lookup without an identifier is modelled only as a refused reply.
- Cache keys: a lookup is cached under its full request URL, while invalidation builds `origin/lowest?prodId=…`. The model keys both by product identifier, so it assumes lookups carry no other query parameters and use the same encoding. A URL with extra parameters would not be invalidated. The model also has a single cache, while the platform cache belongs to the data center serving the request and the deletion clears only the copy where the ingest ran; `Worker.LookupAfterAcceptedUpdate` describes a lookup served by that same cache.
- Cache lifetime: the 1800-second time-to-live and platform eviction are not modelled. Expiry only removes entries, so it cannot break cache coherence.
- Pipeline.ServerLowReachesClient: the lookup reply is marked cacheable for 1800 seconds, and the extension relies on the browser's HTTP cache and the CDN, which the worker's invalidation does not reach. A client may therefore read a price up to 30 minutes old. The lemma describes a lookup that reaches the worker; the browser and CDN caches are not modelled.
- Pipeline.WorthyReportIsAccepted: holds only for a client whose lookup reached the worker. A client holding a cached low from before an accepted update can report a price that is below that low but not below the current one, and the worker rejects it.
- Worker.Ingest: an item that is not an object (such as `null` in the items array) makes reading its product identifier throw, and a product identifier the database cannot bind fails the same way. The request then fails with no count, while the rows and upserts of the items before it are already written. `Item` cannot express such an entry; the state left behind is `Ingest` over the items before the failing one, so `Worker.IngestPreservesValid` and `Worker.IngestMonotone` still apply to it.
- Cache method check: only GET lookups are modelled.
- Anonymizer.ReporterToken: the SHA-256 digest is a function parameter. Only determinism and the sentinel fallback are modelled.
- Concurrency: the read-decide-write race between concurrent ingest requests is not modelled. Items are processed one at a time.
- Uploader timing: `setTimeout` delays and async interleaving are not modelled. Timer expiry is the explicit `TimerFire` event.
- Time: the JavaScript clock and the SQL engine's `now` are taken to be one integer clock. The text format of stored times is modelled only in `TrustWindow`.
- Floating point: prices are integers. A non-numeric price becomes NaN, and NaN passes the `price <= 10` filter; that case is not modelled.
- Resolver.NormalizePrice: the input is null, undefined, an integer or non-finite. Strings converted by `Number` and fractional numbers are not modelled.
- Format.FormatNumber: only integers are formatted. Fractional numbers are not modelled.
- Format.Decimal: the decimal text is unbounded. JavaScript prints magnitudes of 10^21 and above in exponential form (such as "1e+21"), which gets no separators, and integers beyond 2^53 are not exact; neither is modelled, since prices stay far below both.
- Request outcome: whether an upload request succeeds is not modelled. The queue is the same either way, because a failed batch is dropped.
- Handler failure: the handler's `ok: false` failure branch is not produced, because the modelled fetches cannot reject. `Content.PriceNotice` still handles a failure reply.
- Page scraping and UI: `getProdId`, `getPromoPrice`, the toast and its session dismissal are not modelled. The chrome message transport and `sendResponse` are not modelled.
- History pruning: reports are never pruned, in the source or in the model.

## Findings

| source | as written | input that shows it | evidently intended | confidence | as-written member | corrected member |
|---|---|---|---|---|---|---|
| cloudflare_worker/src/worker.js:89 | `created_at` holds ISO text such as `2024-05-01T01:00:00.000Z`. It is compared as text with `datetime('now','-1 day')`, which renders as `2024-05-01 02:00:00`. On the cutoff's own date the `T` sorts after the space, so every report from that date counts. | A report at 01:00 on one day, classified at 02:00 the next day (25 hours later), is counted. | Count only reports created within the last 24 hours. | not executed; depends on the SQL engine comparing the two values as text | TrustWindow.StaleReportCountsAsWritten | TrustWindow.InWindowIsTrailingDay |
| extension/background.js:56-60 | `shouldEnqueue` reports only a price strictly below the lowest known low, while the worker's policy (cloudflare_worker/src/worker.js:96-110) also accepts an equal price whose trust improves. A client that read the current record therefore never sends the second same-price report that turns an Unverified record Trusted. | Reporter r1 reports 500 for a product with no record; the record becomes (500, Unverified). Reporter r2 sees 500 and the community low 500: the worker would accept it as Trusted, but the client does not send it. | Also report a price equal to the community low while that record is Unverified, so a second reporter can confirm it. | not executed; the intent is inferred from the worker's equal-price branch and its comment | Pipeline.EqualPriceUpgradeNeverSent | Pipeline.CorrectedClientSendsEveryAcceptable |

For the second finding, `Background.HandleMessage` keeps the shipped `shouldEnqueue` test, because the handler's other properties (`Background.QueuedReportIsWorthy`, `Resolver.EnqueueAgreesWithDisplay`) describe the extension as it behaves. The corrected test is `Pipeline.ShouldEnqueueOrConfirm`. `Pipeline.CorrectedClientSendsEveryAcceptable` proves it sends every report the policy would accept, and `Pipeline.CorrectedNeverSendsHigher` proves it never sends a price above a known low.

=== FILE: anonymizer.dfy ===
/** Reporter anonymisation at ingestion (cloudflare_worker/src/worker.js):
    the connecting address, or a sentinel when it is missing, is salted and
    digested into an opaque token. The digest itself is a parameter. */
module Anonymizer {
  import opened Wrappers

  /** Stand-in address used when the request carries none. */
  const Sentinel: string := "0.0.0.0"

  /** Fixed salt appended to the address before digesting. */
  const Salt: string := "SALT"

  /** The address hashed for a request: the connecting-address header when
      it is present and non-empty, otherwise the sentinel. */
  function Identity(header: Option<string>): (id: string)
    ensures id != ""
    ensures header.Some? && header.value != "" ==> id == header.value
    ensures header.None? || header.value == "" ==> id == Sentinel
  {
    if header.Some? && header.value != "" then header.value else Sentinel
  }

  function ReporterToken(digest: string -> string, header: Option<string>): string {
    digest(Identity(header) + Salt)
  }

  /** Every request without a usable address, and a request really coming
      from the sentinel address, share one reporter token, so they can never
      corroborate one another. */
  lemma AddresslessReportersShareToken(digest: string -> string)
    ensures ReporterToken(digest, None) == ReporterToken(digest, Some(Sentinel))
    ensures ReporterToken(digest, Some("")) == ReporterToken(digest, Some(Sentinel))
  {
  }

  /** With a collision-free digest, two addresses get the same token exactly
      when they are the same address. */
  lemma TokensDistinguishAddresses(digest: string -> string, a: string, b: string)
    requires forall x, y :: digest(x) == digest(y) ==> x == y
    requires a != "" && b != ""
    ensures ReporterToken(digest, Some(a)) == ReporterToken(digest, Some(b)) <==> a == b
  {
    if ReporterToken(digest, Some(a)) == ReporterToken(digest, Some(b)) {
      assert a + Salt == b + Salt;
      assert |a| == |b|;
      assert a == (a + Salt)[..|a|];
      assert b == (b + Salt)[..|b|];
    }
  }
}

=== FILE: background.dfy ===
/** The background process's price request handler
    (extension/background.js): filter the message, merge the official and
    community lows into the displayed low, and hand a report-worthy price
    to the uploader. The network fetches are parameters: the official data
    and the outcome of the community lookup. */
module Background {
  import opened Wrappers
  import opened Resolver
  import opened Uploader

  /** Configuration of the resolver and uploader. */
  datatype Settings = Settings(useCommunity: bool, communityBase: string)

  /** The configuration the extension ships with. */
  const Defaults: Settings := Settings(true, "https://momo-community-low.brad0315.workers.dev")

  /** A request from the page script; a missing identifier or page type is None. */
  datatype Message = Message(kind: string, prodId: Option<string>, promoOverride: Raw, pageType: Option<string>)

  /** What fetchPrice returns. The shipped implementation always returns
      both fields null (see OfficialStub). */
  datatype OfficialData = OfficialData(promo: Raw, low: Option<int>)

  const OfficialStub: OfficialData := OfficialData(Null, None)

  /** A report as queued for upload; observedAt is the clock when it was made. */
  datatype ReportItem = ReportItem(prodId: string, price: Option<int>, pageType: Option<string>, observedAt: int)

  /** The reply sent back to the page script. */
  datatype Reply =
    | Answer(promo: Raw, low: Option<int>, communityLow: Option<int>, effectiveLow: Option<int>, source: Option<Source>)
    | Failure(error: string)

  /** The handler either ignores the message (no reply) or replies, with
      the uploader's state and the requests it sent. */
  datatype Handled =
    | Ignored
    | Replied(reply: Reply, queue: Queue<ReportItem>, sent: seq<Batch<ReportItem>>)

  /** Only a price request naming a product is handled. */
  predicate IsPriceRequest(msg: Option<Message>) {
    msg.Some? && msg.value.kind == "getPrice" && msg.value.prodId.Some? && msg.value.prodId.value != ""
  }

  /** The observed price: the page's override unless it is nullish, else the official promo. */
  function PromoValue(m: Message, official: OfficialData): (v: Raw)
    ensures !Nullish(m.promoOverride) ==> v == m.promoOverride
    ensures Nullish(v) <==> Nullish(m.promoOverride) && Nullish(official.promo)
    ensures v == m.promoOverride || v == official.promo
  {
    if Nullish(m.promoOverride) then official.promo else m.promoOverride
  }

  /** The community low the handler works with: fetched only when enabled. */
  function CommunityFor(settings: Settings, fetched: Fetched): (c: Option<int>)
    ensures !settings.useCommunity ==> c.None?
    ensures settings.useCommunity ==> c == CommunityLow(settings.communityBase, fetched)
  {
    if settings.useCommunity then CommunityLow(settings.communityBase, fetched) else None
  }

  /** The report an accepted price request queues. */
  function ReportFor(m: Message, official: OfficialData, now: int): ReportItem
    requires m.prodId.Some?
  {
    var pageType := if m.pageType.Some? && m.pageType.value != "" then m.pageType else None;
    ReportItem(m.prodId.value, NormalizePrice(PromoValue(m, official)), pageType, now)
  }

  /** Whether the handler hands a report to the uploader. */
  predicate WorthReporting(settings: Settings, m: Message, official: OfficialData, fetched: Fetched) {
    settings.useCommunity
    && ShouldEnqueue(PromoValue(m, official), ToRaw(official.low), ToRaw(CommunityFor(settings, fetched)))
  }

  /** The onMessage handler. */
  function HandleMessage(msg: Option<Message>, settings: Settings, official: OfficialData, fetched: Fetched,
                         now: int, q: Queue<ReportItem>): (h: Handled)
    ensures !IsPriceRequest(msg) <==> h.Ignored?
    ensures h.Replied? ==> h.reply.Answer? && h.reply.promo == official.promo && h.reply.low == official.low
    ensures h.Replied? ==> h.reply.communityLow == CommunityFor(settings, fetched)
    ensures h.Replied? ==>
      (h.reply.effectiveLow == if settings.useCommunity then MinPresent(official.low, h.reply.communityLow) else official.low)
    ensures h.Replied? ==> (h.reply.source == Some(Community) <==>
      settings.useCommunity && h.reply.communityLow.Some?
      && (official.low.None? || h.reply.communityLow.value < official.low.value))
    ensures h.Replied? ==> (h.reply.source == Some(Official) <==>
      h.reply.effectiveLow.Some? && h.reply.source != Some(Community))
    ensures h.Replied? && !WorthReporting(settings, msg.value, official, fetched) ==> h.queue == q && h.sent == []
    ensures h.Replied? && WorthReporting(settings, msg.value, official, fetched) ==>
      Outcome(h.queue, h.sent) == EnqueueItem(q, ReportFor(msg.value, official, now), settings.communityBase)
  {
    if msg.None? then Ignored
    else
      var m := msg.value;
      if m.kind != "getPrice" || m.prodId.None? || m.prodId.value == "" then Ignored
      else
        var communityLow := CommunityFor(settings, fetched);
        var merged := Merge(official.low, communityLow, settings.useCommunity);
        var upload :=
          if WorthReporting(settings, m, official, fetched)
          then EnqueueItem(q, ReportFor(m, official, now), settings.communityBase)
          else Outcome(q, []);
        Replied(Answer(official.promo, official.low, communityLow, merged.effectiveLow, merged.source),
                upload.queue, upload.sent)
  }

  /** The displayed low is the smaller of the official and community lows,
      and the reported source names the one taken. */
  lemma ReplyShowsLowest(msg: Option<Message>, official: OfficialData, fetched: Fetched, now: int, q: Queue<ReportItem>)
    requires IsPriceRequest(msg)
    ensures
      var h := HandleMessage(msg, Defaults, official, fetched, now, q);
      var c := CommunityLow(Defaults.communityBase, fetched);
      && h.reply.effectiveLow == MinPresent(official.low, c)
      && (h.reply.source == Some(Community) <==> c.Some? && (official.low.None? || c.value < official.low.value))
  {
  }

  /** A queued report always carries a price, strictly below the low the
      user is shown when one is shown. */
  lemma QueuedReportIsWorthy(m: Message, official: OfficialData, fetched: Fetched, now: int)
    requires m.prodId.Some?
    requires WorthReporting(Defaults, m, official, fetched)
    ensures
      var item := ReportFor(m, official, now);
      var shown := Merge(official.low, CommunityFor(Defaults, fetched), true).effectiveLow;
      item.price.Some? && (shown.None? || item.price.value < shown.value)
  {
    EnqueueAgreesWithDisplay(PromoValue(m, official), official.low, CommunityFor(Defaults, fetched));
  }

  /** With the shipped official stub and no page price, nothing is ever queued. */
  lemma NoPriceNoReport(m: Message, fetched: Fetched)
    requires Nullish(m.promoOverride)
    ensures !WorthReporting(Defaults, m, OfficialStub, fetched)
  {
  }

  /** Handling requests keeps the uploader's invariant. */
  lemma HandlePreservesInv(msg: Option<Message>, settings: Settings, official: OfficialData, fetched: Fetched,
                           now: int, q: Queue<ReportItem>)
    requires Inv(q)
    requires IsPriceRequest(msg)
    ensures Inv(HandleMessage(msg, settings, official, fetched, now, q).queue)
  {
    var m := msg.value;
    if WorthReporting(settings, m, official, fetched) {
      StepPreservesInv(q, Enqueue(ReportFor(m, official, now), settings.communityBase));
    }
  }
}

=== FILE: content.dfy ===
/** The message the product page shows once the background process
    answers (extension/content_product.js, the selection in checkPrice). */
module Content {
  import opened Wrappers
  import opened Format
  import opened Background

  const NoHistoryText: string := "尚無歷史價格"
  const UnreachableText: string := "無法連接資料庫"
  const ErrorText: string := "發生錯誤"
  const LowPrefix: string := "歷史低價: $"

  datatype ToastKind = Info | Warning

  datatype Toast = Toast(text: string, kind: ToastKind)

  /** How the request to the background process ended: it threw, or it
      returned a reply (None when no listener answered). */
  datatype SendOutcome = Threw | Returned(response: Option<Reply>)

  /** The notice shown for an outcome. */
  function PriceNotice(outcome: SendOutcome): (t: Toast)
    ensures outcome.Threw? ==> t == Toast(ErrorText, Warning)
    ensures outcome.Returned? && (outcome.response.None? || !outcome.response.value.Answer?)
      ==> t == Toast(UnreachableText, Warning)
    ensures t.kind == Info <==> outcome.Returned? && outcome.response.Some? && outcome.response.value.Answer?
  {
    match outcome
    case Threw => Toast(ErrorText, Warning)
    case Returned(response) =>
      if response.None? || !response.value.Answer? then Toast(UnreachableText, Warning)
      else
        var low := response.value.effectiveLow;
        if low.None? then Toast(NoHistoryText, Info)
        else Toast(LowPrefix + FormatNumber(low.value), Info)
  }

  /** An answer without a low shows the "no history" text; an answer with
      one shows the prefix followed by the low whose digits, commas removed,
      are exactly the low's decimal text. */
  lemma NoticeShowsEffectiveLow(r: Reply)
    requires r.Answer?
    ensures r.effectiveLow.None? ==> PriceNotice(Returned(Some(r))).text == NoHistoryText
    ensures r.effectiveLow.Some? ==>
      var text := PriceNotice(Returned(Some(r))).text;
      && |text| >= |LowPrefix|
      && text[..|LowPrefix|] == LowPrefix
      && StripCommas(text[|LowPrefix|..]) == IntToString(r.effectiveLow.value)
  {
    if r.effectiveLow.Some? {
      var text := PriceNotice(Returned(Some(r))).text;
      assert text[|LowPrefix|..] == FormatNumber(r.effectiveLow.value);
      FormatNumberStrips(r.effectiveLow.value);
    }
  }

  /** Example: a low of 1000 is shown with a thousands separator. */
  lemma ThousandNotice()
    ensures PriceNotice(Returned(Some(Answer(Resolver.Null, None, Some(1000), Some(1000), Some(Resolver.Community)))))
      == Toast(LowPrefix + "1,000", Info)
  {
    FormatThousand();
  }
}

=== FILE: format.dfy ===
/** Decimal rendering of prices with thousands separators, as the product
    page script shows the lowest price (extension/content_product.js). */
module Format {

  predicate IsDigit(c: char) {
    '0' <= c <= '9'
  }

  predicate AllDigits(s: string) {
    forall i :: 0 <= i < |s| ==> IsDigit(s[i])
  }

  function DigitChar(d: nat): (c: char)
    requires d < 10
    ensures IsDigit(c)
  {
    ('0' as int + d) as char
  }

  function DigitValue(c: char): (d: nat)
    requires IsDigit(c)
    ensures d < 10
  {
    (c as int - '0' as int) as nat
  }

  function Pow10(k: nat): (p: nat)
    ensures p >= 1
  {
    if k == 0 then 1 else 10 * Pow10(k - 1)
  }

  /** The plain decimal representation of a non-negative integer: digits
      only, no leading zero. `toString()` yields this text for the safe
      integers that prices are. */
  function Decimal(n: nat): (s: string)
    ensures |s| >= 1 && AllDigits(s)
    ensures s[0] == '0' ==> n == 0
    decreases n
  {
    if n < 10 then [DigitChar(n)] else Decimal(n / 10) + [DigitChar(n % 10)]
  }

  /** Reads a digit string back as a number (the inverse of `Decimal`). */
  function Value(s: string): nat
    requires AllDigits(s)
    decreases |s|
  {
    if |s| == 0 then 0 else Value(s[..|s| - 1]) * 10 + DigitValue(s[|s| - 1])
  }

  lemma {:induction false} DecimalRoundTrip(n: nat)
    ensures Value(Decimal(n)) == n
    decreases n
  {
    if n >= 10 {
      DecimalRoundTrip(n / 10);
      var s := Decimal(n);
      assert s[..|s| - 1] == Decimal(n / 10);
    }
  }

  /** A decimal string has at most k digits exactly when the number is below 10^k. */
  lemma {:induction false} DecimalLength(n: nat, k: nat)
    requires k >= 1
    ensures |Decimal(n)| <= k <==> n < Pow10(k)
    decreases n
  {
    if n >= 10 {
      if k == 1 {
        assert |Decimal(n)| == |Decimal(n / 10)| + 1;
      } else {
        DecimalLength(n / 10, k - 1);
        assert n / 10 < Pow10(k - 1) <==> n < 10 * Pow10(k - 1);
      }
    } else {
      PowAtLeastTen(k);
    }
  }

  lemma {:induction false} PowAtLeastTen(k: nat)
    requires k >= 1
    ensures Pow10(k) >= 10
  {
    if k > 1 {
      PowAtLeastTen(k - 1);
    }
  }

  /** The separator regular expression matches at position i of a digit
      string of length len exactly when i is not a word boundary (strictly
      inside the string) and the digits from i to the end form one or more
      complete groups of three. */
  predicate SeparatorAt(len: nat, i: nat) {
    0 < i < len && (len - i) % 3 == 0
  }

  /** The digits of d from position i on, with a comma inserted at every
      position where the separator expression matches. */
  function InsertFrom(d: string, i: nat): string
    requires i <= |d|
    decreases |d| - i
  {
    if i == |d| then ""
    else (if SeparatorAt(|d|, i) then "," else "") + [d[i]] + InsertFrom(d, i + 1)
  }

  /** The global replace of the separator expression over a digit string. */
  function InsertSeparators(d: string): string {
    InsertFrom(d, 0)
  }

  /** formatPrice on a non-negative integer. */
  function FormatPrice(n: nat): string {
    InsertSeparators(Decimal(n))
  }

  /** formatPrice on any integer: the minus sign that `toString()` puts in
      front is a non-word character, so no separator is placed after it. */
  function FormatNumber(x: int): string {
    if x < 0 then "-" + FormatPrice(-x) else FormatPrice(x)
  }

  /** The plain decimal text of an integer, with a leading minus sign when negative. */
  function IntToString(x: int): string {
    if x < 0 then "-" + Decimal(-x) else Decimal(x)
  }

  /** Reference grouping: split three digits off the right end at a time. */
  function GroupRight(d: string): string
    decreases |d|
  {
    if |d| <= 3 then d else GroupRight(d[..|d| - 3]) + "," + d[|d| - 3..]
  }

  /** Commas split s into groups of exactly three digits counted from the
      right, the leftmost group holding one to three digits. */
  predicate WellGrouped(s: string)
    decreases |s|
  {
    if |s| <= 3 then 1 <= |s| && AllDigits(s)
    else |s| >= 5 && s[|s| - 4] == ',' && AllDigits(s[|s| - 3..]) && WellGrouped(s[..|s| - 4])
  }

  function StripCommas(s: string): (r: string)
    decreases |s|
  {
    if |s| == 0 then ""
    else StripCommas(s[..|s| - 1]) + (if s[|s| - 1] == ',' then "" else [s[|s| - 1]])
  }

  lemma {:induction false} StripAppend(a: string, b: string)
    ensures StripCommas(a + b) == StripCommas(a) + StripCommas(b)
    decreases |b|
  {
    if |b| > 0 {
      var b' := b[..|b| - 1];
      assert (a + b)[..|a + b| - 1] == a + b';
      StripAppend(a, b');
    } else {
      assert a + b == a;
    }
  }

  lemma {:induction false} StripDigits(s: string)
    requires AllDigits(s)
    ensures StripCommas(s) == s
    decreases |s|
  {
    if |s| > 0 {
      StripDigits(s[..|s| - 1]);
      assert s == s[..|s| - 1] + [s[|s| - 1]];
    }
  }

  /** No separator falls inside a string of at most three digits. */
  lemma {:induction false} InsertShort(d: string, i: nat)
    requires i <= |d| <= 3
    ensures InsertFrom(d, i) == d[i..]
    decreases |d| - i
  {
    if i < |d| {
      InsertShort(d, i + 1);
      assert d[i..] == [d[i]] + d[i + 1..];
    }
  }

  /** Among the last three digits only the first can be preceded by a
      separator, and only when exactly three digits remain. */
  lemma {:induction false} InsertTail(d: string, i: nat)
    requires 0 < i <= |d| && |d| - i <= 3
    ensures InsertFrom(d, i) == (if |d| - i == 3 then "," else "") + d[i..]
    decreases |d| - i
  {
    if i < |d| {
      InsertTail(d, i + 1);
      assert d[i..] == [d[i]] + d[i + 1..];
    }
  }

  /** Inserting separators into d equals inserting them into d without its
      last three digits, then appending a comma and those three digits. */
  lemma {:induction false} InsertSplit(d: string, i: nat)
    requires |d| > 3
    requires i <= |d| - 3
    ensures InsertFrom(d, i) == InsertFrom(d[..|d| - 3], i) + "," + d[|d| - 3..]
    decreases |d| - i
  {
    var d' := d[..|d| - 3];
    var tail := d[|d| - 3..];
    if i == |d'| {
      InsertTail(d, i);
      assert InsertFrom(d', i) == "";
    } else {
      InsertSplit(d, i + 1);
      InsertStep(d, i);
    }
  }

  lemma ModShift(a: nat)
    ensures (a + 3) % 3 == a % 3
  {
  }

  /** One position of InsertSplit: the separator decision at i is the same
      in d and in d without its last three digits. */
  lemma InsertStep(d: string, i: nat)
    requires |d| > 3 && i < |d| - 3
    requires InsertFrom(d, i + 1) == InsertFrom(d[..|d| - 3], i + 1) + "," + d[|d| - 3..]
    ensures InsertFrom(d, i) == InsertFrom(d[..|d| - 3], i) + "," + d[|d| - 3..]
  {
    var d' := d[..|d| - 3];
    ModShift(|d'| - i);
    assert SeparatorAt(|d|, i) == SeparatorAt(|d'|, i);
    var pre := (if SeparatorAt(|d|, i) then "," else "") + [d[i]];
    assert InsertFrom(d, i) == pre + InsertFrom(d, i + 1);
    assert InsertFrom(d', i) == pre + InsertFrom(d', i + 1);
    Regroup(pre, InsertFrom(d', i + 1), d[|d| - 3..]);
  }

  lemma Regroup(pre: string, x: string, tail: string)
    ensures pre + (x + "," + tail) == (pre + x) + "," + tail
  {
  }

  /** The regular-expression formulation agrees with the reference grouping. */
  lemma {:induction false} InsertMatchesGrouping(d: string)
    ensures InsertSeparators(d) == GroupRight(d)
    decreases |d|
  {
    if |d| <= 3 {
      InsertShort(d, 0);
    } else {
      InsertSplit(d, 0);
      InsertMatchesGrouping(d[..|d| - 3]);
    }
  }

  lemma StripComma()
    ensures StripCommas(",") == ""
  {
    assert ","[..0] == "";
  }

  lemma {:induction false} GroupRightStrips(d: string)
    requires AllDigits(d)
    ensures StripCommas(GroupRight(d)) == d
    decreases |d|
  {
    if |d| <= 3 {
      StripDigits(d);
    } else {
      var head := d[..|d| - 3];
      var tail := d[|d| - 3..];
      GroupRightStrips(head);
      StripJoin(GroupRight(head), head, tail);
      assert head + tail == d;
    }
  }

  /** Joining with a comma and then stripping commas is plain concatenation. */
  lemma StripJoin(g: string, head: string, tail: string)
    requires StripCommas(g) == head && AllDigits(tail)
    ensures StripCommas(g + "," + tail) == head + tail
  {
    calc {
      StripCommas(g + "," + tail);
      { StripAppend(g + ",", tail); }
      StripCommas(g + ",") + StripCommas(tail);
      { StripAppend(g, ","); StripComma(); }
      StripCommas(g) + StripCommas(tail);
      { StripDigits(tail); }
      head + tail;
    }
  }

  lemma {:induction false} GroupRightWellGrouped(d: string)
    requires 1 <= |d| && AllDigits(d)
    ensures WellGrouped(GroupRight(d))
    decreases |d|
  {
    if |d| > 3 {
      var head := d[..|d| - 3];
      GroupRightWellGrouped(head);
      var g := GroupRight(d);
      assert g[..|g| - 4] == GroupRight(head);
      assert g[|g| - 3..] == d[|d| - 3..];
    }
  }

  lemma {:induction false} WellGroupedEnds(s: string)
    requires WellGrouped(s)
    ensures |s| >= 1 && IsDigit(s[0]) && IsDigit(s[|s| - 1])
    decreases |s|
  {
    if |s| > 3 {
      WellGroupedEnds(s[..|s| - 4]);
      assert s[0] == s[..|s| - 4][0];
      assert s[|s| - 1] == s[|s| - 3..][2];
    }
  }

  lemma {:induction false} GroupRightHasComma(d: string)
    ensures ',' in GroupRight(d) <==> (|d| > 3 || ',' in d)
    decreases |d|
  {
    if |d| > 3 {
      var g := GroupRight(d);
      assert g[|GroupRight(d[..|d| - 3])|] == ',';
    }
  }

  /** Below 1000, formatPrice returns the plain decimal digits unchanged. */
  lemma FormatSmallUnchanged(n: nat)
    requires n < 1000
    ensures FormatPrice(n) == Decimal(n)
  {
    DecimalLength(n, 3);
    InsertShort(Decimal(n), 0);
  }

  /** Removing the commas from formatPrice(n) gives back the decimal string of n,
      so the number shown is the number formatted. */
  lemma FormatStripsToDecimal(n: nat)
    ensures StripCommas(FormatPrice(n)) == Decimal(n)
    ensures Value(StripCommas(FormatPrice(n))) == n
  {
    InsertMatchesGrouping(Decimal(n));
    GroupRightStrips(Decimal(n));
    DecimalRoundTrip(n);
  }

  /** formatPrice(n) consists of three-digit groups from the right after a
      leading group of one to three digits, with no leading or trailing comma. */
  lemma FormatWellGrouped(n: nat)
    ensures WellGrouped(FormatPrice(n))
    ensures FormatPrice(n)[0] != ',' && FormatPrice(n)[|FormatPrice(n)| - 1] != ','
  {
    InsertMatchesGrouping(Decimal(n));
    GroupRightWellGrouped(Decimal(n));
    WellGroupedEnds(FormatPrice(n));
  }

  /** A separator appears exactly when the number has four or more digits. */
  lemma FormatHasCommaIff(n: nat)
    ensures ',' in FormatPrice(n) <==> n >= 1000
  {
    InsertMatchesGrouping(Decimal(n));
    GroupRightHasComma(Decimal(n));
    DecimalLength(n, 3);
  }

  lemma FormatThousand()
    ensures FormatPrice(1000) == "1,000"
  {
    assert Decimal(1000) == "1000";
    InsertMatchesGrouping("1000");
    assert "1000"[..1] == "1";
    assert "1000"[1..] == "000";
  }

  lemma StripMinus()
    ensures StripCommas("-") == "-"
  {
    assert "-"[..0] == "";
  }

  lemma NegativeStrips(m: nat)
    ensures StripCommas("-" + FormatPrice(m)) == "-" + Decimal(m)
  {
    FormatStripsToDecimal(m);
    StripAppend("-", FormatPrice(m));
    StripMinus();
  }

  /** For any integer, the formatted text without its commas is what
      `toString()` gives. */
  lemma FormatNumberStrips(x: int)
    ensures StripCommas(FormatNumber(x)) == IntToString(x)
  {
    if x < 0 {
      NegativeStrips(-x);
    } else {
      FormatStripsToDecimal(x);
    }
  }
}

=== FILE: pipeline.dfy ===
/** How the client and the server fit together when the client's lookup
    reaches the worker (rather than a browser or CDN cached copy): the
    lowest price the worker serves is the community low the client reads,
    a report the client sends is accepted, and one it declines cannot lower
    the stored price. The client never sends a report at the stored price,
    so the worker's equal-price trust upgrade is never triggered by it. */
module Pipeline {
  import opened Wrappers
  import opened TrustScorer
  import opened PriceStore
  import opened Worker
  import opened Resolver
  import opened Background

  /** The lookup reply as the client parses it: a null minPrice arrives as
      null, and the reply has no `min` field. */
  function WireBody(p: Payload): Fetched {
    Body(ToRaw(p.minPrice), Undefined)
  }

  /** A queued report as the worker reads it: the price goes through
      `Number`, which turns null into 0. */
  function WireItem(r: ReportItem): Item {
    Item(Some(r.prodId), r.price.GetOr(0))
  }

  /** A lookup that reaches the worker gives the client the stored lowest price. */
  lemma ServerLowReachesClient(s: State, prodId: string, baseUrl: string)
    requires Valid(s) && prodId != "" && baseUrl != ""
    ensures
      var reply := Lookup(s, Some(prodId)).reply;
      && reply.Some?
      && CommunityLow(baseUrl, WireBody(reply.value)) == PayloadOf(s.store, prodId).minPrice
      && (CommunityLow(baseUrl, WireBody(reply.value)).Some? <==> prodId in s.store)
  {
    LookupReadsThrough(s, prodId);
  }

  /** When the client's lookup reached the worker, a report it finds worth
      sending, above the price floor, is accepted by the conflict policy. */
  lemma WorthyReportIsAccepted(s: State, prodId: string, price: int, token: Token, now: int, baseUrl: string)
    requires Valid(s) && prodId != "" && baseUrl != "" && price > PriceFloor
    requires
      var c := CommunityLow(baseUrl, WireBody(Lookup(s, Some(prodId)).reply.value));
      ShouldEnqueue(Num(price), Null, ToRaw(c))
    ensures Accepts(s, Item(Some(prodId), price), token, now)
  {
    ServerLowReachesClient(s, prodId, baseUrl);
    ShouldEnqueueIffBelowLowest(Num(price), Null, ToRaw(PayloadOf(s.store, prodId).minPrice));
  }

  /** A price the client declines to report could not have lowered the
      stored price anyway: ingesting it leaves that price as it is. */
  lemma UnworthyReportCannotLowerPrice(s: State, prodId: string, price: int, token: Token, now: int, baseUrl: string)
    requires Valid(s) && prodId != "" && baseUrl != "" && price > PriceFloor
    requires
      var c := CommunityLow(baseUrl, WireBody(Lookup(s, Some(prodId)).reply.value));
      !ShouldEnqueue(Num(price), Null, ToRaw(c))
    ensures prodId in s.store
    ensures IngestItem(s, Item(Some(prodId), price), token, now).store[prodId].minPrice
            == s.store[prodId].minPrice
  {
    ServerLowReachesClient(s, prodId, baseUrl);
    ShouldEnqueueIffBelowLowest(Num(price), Null, ToRaw(PayloadOf(s.store, prodId).minPrice));
  }

  /** As written, the client's strict test never sends a report at the
      stored price, although the worker accepts one from a second reporter
      as the upgrade from Unverified to Trusted: after "r1" reports 500 the
      record is (500, Unverified), the worker would accept "r2"'s 500, and a
      client reading that record declines to send it. */
  lemma EqualPriceUpgradeNeverSent()
    ensures
      var x := Item(Some("X"), 500);
      var a := IngestItem(Empty(), x, "r1", 0);
      var c := CommunityLow("b", WireBody(Lookup(a, Some("X")).reply.value));
      && a.store["X"] == Record(500, Unverified, 0)
      && Accepts(a, x, "r2", 60)
      && !ShouldEnqueue(Num(500), Null, ToRaw(c))
  {
    var x := Item(Some("X"), 500);
    var a := IngestItem(Empty(), x, "r1", 0);
    LoneReporterUnverified([], ReportOf(x, "r1", 0), 0);
    SecondReporterTrusted(a.history, ReportOf(x, "r2", 60), 60, 0);
  }

  /** The corrected client test: report a price below the lowest known low
      as before, and also a price equal to the community low while that
      record is Unverified and no lower official low is known, so that a
      second reporter can confirm it. */
  predicate ShouldEnqueueOrConfirm(promoValue: Raw, officialLow: Raw, community: Option<int>, communityTrust: Option<Trust>) {
    ShouldEnqueue(promoValue, officialLow, ToRaw(community))
    || (var promo := NormalizePrice(promoValue);
        var official := NormalizePrice(officialLow);
        && promo.Some? && community == promo && communityTrust == Some(Unverified)
        && (official.None? || promo.value <= official.value))
  }

  /** With the corrected test, a client whose lookup reached the worker
      sends every report above the floor that the conflict policy would
      accept, including the equal-price trust upgrade. */
  lemma CorrectedClientSendsEveryAcceptable(s: State, prodId: string, price: int, token: Token, now: int)
    requires Valid(s) && prodId != "" && price > PriceFloor
    requires Accepts(s, Item(Some(prodId), price), token, now)
    ensures
      var reply := Lookup(s, Some(prodId)).reply.value;
      ShouldEnqueueOrConfirm(Num(price), Null, reply.minPrice, reply.trust)
  {
    LookupReadsThrough(s, prodId);
    ShouldEnqueueIffBelowLowest(Num(price), Null, ToRaw(PayloadOf(s.store, prodId).minPrice));
    NormalizeRoundTrip(PayloadOf(s.store, prodId).minPrice, Null);
  }

  /** The corrected test still never sends a price above a known low. */
  lemma CorrectedNeverSendsHigher(promoValue: Raw, officialLow: Raw, community: Option<int>, communityTrust: Option<Trust>)
    requires ShouldEnqueueOrConfirm(promoValue, officialLow, community, communityTrust)
    ensures NormalizePrice(promoValue).Some?
    ensures community.Some? ==> NormalizePrice(promoValue).value <= community.value
    ensures NormalizePrice(officialLow).Some? ==> NormalizePrice(promoValue).value <= NormalizePrice(officialLow).value
  {
    ShouldEnqueueIffBelowLowest(promoValue, officialLow, ToRaw(community));
    NormalizeRoundTrip(community, Null);
  }

  /** A queued report reaches the worker with its product and price intact. */
  lemma QueuedReportArrivesIntact(m: Message, fetched: Fetched, now: int)
    requires m.prodId.Some? && m.prodId.value != ""
    requires WorthReporting(Defaults, m, OfficialStub, fetched)
    ensures
      var item := WireItem(ReportFor(m, OfficialStub, now));
      item.prodId == m.prodId && Some(item.price) == NormalizePrice(PromoValue(m, OfficialStub))
  {
    QueuedReportIsWorthy(m, OfficialStub, fetched, now);
  }
}

=== FILE: price_store.dfy ===
/** The current-lowest table and its conflict policy
    (cloudflare_worker/src/worker.js): one record per product, replaced
    only by a strictly lower price, or by the same price at a better trust
    level. */
module PriceStore {
  import opened Wrappers
  import opened TrustScorer

  /** The row for one product. */
  datatype Record = Record(minPrice: int, trust: Trust, updatedAt: int)

  type Store = map<string, Record>

  function Get(store: Store, prodId: string): (r: Option<Record>)
    ensures r.Some? <==> prodId in store
    ensures r.Some? ==> r.value == store[prodId]
  {
    if prodId in store then Some(store[prodId]) else None
  }

  /** The quality order on (price, trust) pairs: a lower price is better,
      and at the same price a smaller trust code is better. */
  predicate AtLeastAsGood(price: int, trust: Trust, otherPrice: int, otherTrust: Trust) {
    price < otherPrice || (price == otherPrice && trust.Code() <= otherTrust.Code())
  }

  /** The record carries a pair at least as good as the other record's. */
  predicate NoWorse(a: Record, b: Record) {
    AtLeastAsGood(a.minPrice, a.trust, b.minPrice, b.trust)
  }

  /** The conflict policy: replace when there is no record, when the price
      is strictly lower, or when the price is equal and the trust level
      strictly better. */
  function ShouldUpdate(current: Option<Record>, price: int, trust: Trust): (accept: bool)
    ensures current.None? ==> accept
    ensures current.Some? ==>
      (accept <==> AtLeastAsGood(price, trust, current.value.minPrice, current.value.trust)
                   && (price, trust) != (current.value.minPrice, current.value.trust))
  {
    if current.None? then true
    else if price < current.value.minPrice then true
    else if price == current.value.minPrice && trust.Code() < current.value.trust.Code() then true
    else false
  }

  /** One evaluation of the policy followed by the conditional upsert. */
  function Upsert(store: Store, prodId: string, price: int, trust: Trust, now: int): (s: Store)
    ensures ShouldUpdate(Get(store, prodId), price, trust) ==> s == store[prodId := Record(price, trust, now)]
    ensures !ShouldUpdate(Get(store, prodId), price, trust) ==> s == store
    ensures s.Keys == store.Keys + {prodId}
    ensures AtLeastAsGood(s[prodId].minPrice, s[prodId].trust, price, trust)
    ensures prodId in store ==> NoWorse(s[prodId], store[prodId])
    ensures forall q :: q in store && q != prodId ==> s[q] == store[q]
  {
    if ShouldUpdate(Get(store, prodId), price, trust) then store[prodId := Record(price, trust, now)] else store
  }

  /** The order on records is transitive, so improvements accumulate. */
  lemma NoWorseTransitive(a: Record, b: Record, c: Record)
    requires NoWorse(a, b) && NoWorse(b, c)
    ensures NoWorse(a, c)
  {
  }

  /** Offering the pair the record already holds changes nothing. */
  lemma ReplayIsNoOp(store: Store, prodId: string, now: int)
    requires prodId in store
    ensures Upsert(store, prodId, store[prodId].minPrice, store[prodId].trust, now) == store
  {
  }

  /** Once a price is Trusted, another report at that price changes nothing,
      whatever its trust level. */
  lemma TrustedRecordIsFinalAtItsPrice(store: Store, prodId: string, trust: Trust, now: int)
    requires prodId in store && store[prodId].trust == Trusted
    ensures Upsert(store, prodId, store[prodId].minPrice, trust, now) == store
  {
  }
}

=== FILE: resolver.dfy ===
/** The client's pure price decisions (extension/background.js): price
    normalisation, the report-worthiness test, the merge of the official
    and community lows, and reading the community low from the lookup
    reply. */
module Resolver {
  import opened Wrappers

  /** A JavaScript value where a price is expected. Numbers are modelled as
      integers; NaN and the infinities are NonFinite. */
  datatype Raw = Null | Undefined | Num(n: int) | NonFinite

  /** The values `??` treats as missing. */
  predicate Nullish(v: Raw) {
    v.Null? || v.Undefined?
  }

  /** normalizePrice: null, undefined and non-finite values become null,
      numbers stay as they are. */
  function NormalizePrice(v: Raw): (r: Option<int>)
    ensures r.Some? <==> v.Num?
    ensures r.Some? ==> r.value == v.n
  {
    if Nullish(v) then None
    else if v.Num? then Some(v.n)
    else None
  }

  /** A normalised price handed back as a JavaScript value. */
  function ToRaw(o: Option<int>): (v: Raw)
    ensures !v.NonFinite? && !v.Undefined?
  {
    if o.Some? then Num(o.value) else Null
  }

  /** Normalising is a retraction: a normalised value passes through
      unchanged, so normalising twice is normalising once. */
  lemma NormalizeRoundTrip(o: Option<int>, v: Raw)
    ensures NormalizePrice(ToRaw(o)) == o
    ensures NormalizePrice(ToRaw(NormalizePrice(v))) == NormalizePrice(v)
  {
  }

  /** The smaller of the present values; absent when both are absent. */
  function MinPresent(a: Option<int>, b: Option<int>): (m: Option<int>)
    ensures m.None? <==> a.None? && b.None?
    ensures m.Some? ==> (a.Some? ==> m.value <= a.value) && (b.Some? ==> m.value <= b.value)
    ensures m.Some? ==> m == a || m == b
  {
    if a.None? then b
    else if b.None? then a
    else if b.value < a.value then b
    else a
  }

  /** shouldEnqueue: whether an observed promotional price is worth reporting. */
  function ShouldEnqueue(promoValue: Raw, officialLow: Raw, communityLow: Raw): bool {
    var promo := NormalizePrice(promoValue);
    var official := NormalizePrice(officialLow);
    var community := NormalizePrice(communityLow);
    if promo.None? then false
    else if official.None? && community.None? then true
    else if community.None? then (if official.None? then true else promo.value < official.value)
    else
      var finalLow := if official.Some? then (if official.value < community.value then official.value else community.value)
                      else community.value;
      promo.value < finalLow
  }

  /** A price is reported exactly when it is present and either no low is
      known or it is strictly below the smaller known low. */
  lemma ShouldEnqueueIffBelowLowest(promoValue: Raw, officialLow: Raw, communityLow: Raw)
    ensures
      var promo := NormalizePrice(promoValue);
      var low := MinPresent(NormalizePrice(officialLow), NormalizePrice(communityLow));
      (ShouldEnqueue(promoValue, officialLow, communityLow)
       <==> promo.Some? && (low.None? || promo.value < low.value))
  {
  }

  /** A price equal to a known low is never reported, nor is a missing one. */
  lemma EqualPriceNeverEnqueued(price: int, officialLow: Raw, communityLow: Raw)
    requires NormalizePrice(officialLow) == Some(price) || NormalizePrice(communityLow) == Some(price)
    ensures !ShouldEnqueue(Num(price), officialLow, communityLow)
    ensures !ShouldEnqueue(Null, officialLow, communityLow)
  {
    ShouldEnqueueIffBelowLowest(Num(price), officialLow, communityLow);
  }

  /** Where the displayed low came from. */
  datatype Source = Official | Community

  datatype Merged = Merged(effectiveLow: Option<int>, source: Option<Source>)

  /** The effective-low merge of the message handler: start from the
      official low, and take the community low when it is enabled, present,
      and either the official low is absent or the community low is strictly
      lower. */
  function Merge(official: Option<int>, communityLow: Option<int>, useCommunity: bool): (m: Merged)
    ensures useCommunity ==> m.effectiveLow == MinPresent(official, communityLow)
    ensures !useCommunity ==> m.effectiveLow == official
    ensures m.source == Some(Community) <==>
      useCommunity && communityLow.Some? && (official.None? || communityLow.value < official.value)
    ensures m.source == Some(Community) ==> m.effectiveLow == communityLow
    ensures m.source == Some(Official) ==> m.effectiveLow == official && official.Some?
    ensures m.source.None? <==> m.effectiveLow.None?
  {
    var effectiveLow := official;
    var source := if official.Some? then Some(Official) else None;
    if useCommunity && communityLow.Some? && (effectiveLow.None? || communityLow.value < effectiveLow.value) then
      Merged(communityLow, Some(Community))
    else
      Merged(effectiveLow, source)
  }

  /** The report decision and the displayed low agree: a price is reported
      exactly when it is strictly below the low the user is shown, or no low
      is shown. */
  lemma EnqueueAgreesWithDisplay(promoValue: Raw, official: Option<int>, communityLow: Option<int>)
    ensures
      var promo := NormalizePrice(promoValue);
      var shown := Merge(official, communityLow, true).effectiveLow;
      (ShouldEnqueue(promoValue, ToRaw(official), ToRaw(communityLow))
       <==> promo.Some? && (shown.None? || promo.value < shown.value))
  {
    ShouldEnqueueIffBelowLowest(promoValue, ToRaw(official), ToRaw(communityLow));
  }

  /** The outcome of fetching the community lookup. */
  datatype Fetched = Unreachable | HttpError | Body(minPrice: Raw, min: Raw)

  /** fetchCommunityLow: no base address, a network failure or an error
      status give null; otherwise the reply's minPrice (or, when that is
      nullish, its min field), normalised. */
  function CommunityLow(baseUrl: string, f: Fetched): (r: Option<int>)
    ensures baseUrl == "" || !f.Body? ==> r.None?
    ensures baseUrl != "" && f.Body? && f.minPrice.Num? ==> r == Some(f.minPrice.n)
    ensures baseUrl != "" && f.Body? && Nullish(f.minPrice) ==> r == NormalizePrice(f.min)
    ensures r.Some? ==>
      ((f.minPrice.Num? && r.value == f.minPrice.n) || (Nullish(f.minPrice) && f.min.Num? && r.value == f.min.n))
  {
    if baseUrl == "" then None
    else match f
      case Unreachable => None
      case HttpError => None
      case Body(minPrice, min) => NormalizePrice(if Nullish(minPrice) then min else minPrice)
  }

  /** Client scenario: 450 against a low of 500 is reported,
      500 against 500 is not. */
  lemma ClientScenario()
    ensures ShouldEnqueue(Num(450), Null, Num(500))
    ensures !ShouldEnqueue(Num(500), Null, Num(500))
  {
  }
}

=== FILE: trust_scorer.dfy ===
/** Trust classification of a report (cloudflare_worker/src/worker.js):
    count the distinct reporter tokens that reported the same product at
    exactly the same price inside the trailing one-day window. */
module TrustScorer {
  import opened TrustWindow

  type Token = string

  /** Two trust levels; on the wire Trusted is 0 and Unverified is 1, and
      the smaller code is the better level. */
  datatype Trust = Trusted | Unverified {
    function Code(): (c: nat)
      ensures c <= 1
    {
      if Trusted? then 0 else 1
    }
  }

  /** One row of the report history; rows are only ever appended. */
  datatype Report = Report(prodId: string, price: int, token: Token, createdAt: int)

  /** The history row takes part in the count for (prodId, price) at time now. */
  predicate Corroborates(r: Report, prodId: string, price: int, now: int) {
    r.prodId == prodId && r.price == price && InWindow(r.createdAt, now)
  }

  /** The distinct reporter tokens the count query sees: the tokens of the
      rows with this product, this exact price and a creation time inside
      the window. */
  function Corroborators(h: seq<Report>, prodId: string, price: int, now: int): set<Token>
    decreases |h|
  {
    if |h| == 0 then {}
    else
      var last := h[|h| - 1];
      Corroborators(h[..|h| - 1], prodId, price, now)
        + (if Corroborates(last, prodId, price, now) then {last.token} else {})
  }

  /** The counted tokens are exactly the tokens of the rows with this
      product, this exact price and a creation time inside the window. */
  lemma {:induction false} CorroboratorsExact(h: seq<Report>, prodId: string, price: int, now: int)
    ensures forall t :: t in Corroborators(h, prodId, price, now) <==>
      exists i :: 0 <= i < |h| && Corroborates(h[i], prodId, price, now) && h[i].token == t
    decreases |h|
  {
    if |h| > 0 {
      CorroboratorsExact(h[..|h| - 1], prodId, price, now);
      assert forall i :: 0 <= i < |h| - 1 ==> h[..|h| - 1][i] == h[i];
    }
  }

  /** The trust level of a report, computed over a history that already
      holds the report itself. A zero count is read as one. */
  function Classify(h: seq<Report>, prodId: string, price: int, now: int): (t: Trust)
    ensures t == Trusted <==> |Corroborators(h, prodId, price, now)| >= 2
  {
    var c := |Corroborators(h, prodId, price, now)|;
    var count := if c == 0 then 1 else c;
    if count >= 2 then Trusted else Unverified
  }

  /** Appending a row adds its token to the count exactly when the row corroborates. */
  lemma CorroboratorsAppend(h: seq<Report>, r: Report, prodId: string, price: int, now: int)
    ensures Corroborators(h + [r], prodId, price, now)
      == Corroborators(h, prodId, price, now) + (if Corroborates(r, prodId, price, now) then {r.token} else {})
  {
    assert (h + [r])[..|h + [r]| - 1] == h;
  }

  /** The report just written is inside the window and counts toward itself. */
  lemma {:induction false} OwnReportCounts(h: seq<Report>, r: Report, now: int)
    requires r.createdAt == now
    ensures r.token in Corroborators(h + [r], r.prodId, r.price, now)
    ensures |Corroborators(h + [r], r.prodId, r.price, now)| >= 1
  {
    CorroboratorsAppend(h, r, r.prodId, r.price, now);
  }

  /** A reporter alone, however often it has reported this price, yields Unverified. */
  lemma {:induction false} LoneReporterUnverified(h: seq<Report>, r: Report, now: int)
    requires r.createdAt == now
    requires forall i :: 0 <= i < |h| && Corroborates(h[i], r.prodId, r.price, now) ==> h[i].token == r.token
    ensures Classify(h + [r], r.prodId, r.price, now) == Unverified
  {
    CorroboratorsAppend(h, r, r.prodId, r.price, now);
    CorroboratorsExact(h, r.prodId, r.price, now);
    var ts := Corroborators(h + [r], r.prodId, r.price, now);
    assert ts == {r.token};
  }

  /** A second report from a token already counted leaves the classification unchanged. */
  lemma {:induction false} RepeatNeverRaisesTrust(h: seq<Report>, r: Report, now: int)
    requires r.token in Corroborators(h, r.prodId, r.price, now)
    ensures Classify(h + [r], r.prodId, r.price, now) == Classify(h, r.prodId, r.price, now)
  {
    CorroboratorsAppend(h, r, r.prodId, r.price, now);
    assert Corroborators(h + [r], r.prodId, r.price, now) == Corroborators(h, r.prodId, r.price, now);
  }

  /** A report at a price another token reported inside the window is Trusted. */
  lemma {:induction false} SecondReporterTrusted(h: seq<Report>, r: Report, now: int, j: nat)
    requires r.createdAt == now
    requires j < |h| && Corroborates(h[j], r.prodId, r.price, now) && h[j].token != r.token
    ensures Classify(h + [r], r.prodId, r.price, now) == Trusted
  {
    CorroboratorsAppend(h, r, r.prodId, r.price, now);
    CorroboratorsExact(h, r.prodId, r.price, now);
    var ts := Corroborators(h + [r], r.prodId, r.price, now);
    assert h[j].token in ts && r.token in ts;
    assert {h[j].token, r.token} <= ts;
    assert |{h[j].token, r.token}| == 2;
    SubsetCard({h[j].token, r.token}, ts);
  }

  lemma SubsetCard(a: set<Token>, b: set<Token>)
    requires a <= b
    ensures |a| <= |b|
  {
    assert b == a + (b - a);
  }

  /** A row for another product, at another price, or outside the window
      does not change the count. */
  lemma {:induction false} NonMatchingReportIgnored(h: seq<Report>, r: Report, prodId: string, price: int, now: int)
    requires !Corroborates(r, prodId, price, now)
    ensures Corroborators(h + [r], prodId, price, now) == Corroborators(h, prodId, price, now)
    ensures Classify(h + [r], prodId, price, now) == Classify(h, prodId, price, now)
  {
    CorroboratorsAppend(h, r, prodId, price, now);
  }
}

=== FILE: trust_window.dfy ===
/** The trailing one-day window of the trust query
    (cloudflare_worker/src/worker.js). Times are whole seconds since the
    Unix epoch, in UTC. */
module TrustWindow {

  /** Length of the trust window: one day, in seconds. */
  const Day: int := 86400

  /** Corrected window: a report counts when it was created strictly after
      one day before now. The rest of the model uses this definition. */
  predicate InWindow(createdAt: int, now: int) {
    createdAt > now - Day
  }

  /** A timestamp as fixed-width text: the calendar date, the character
      separating date from time, and the time of day. Comparing two such
      texts character by character is comparing these three fields
      lexicographically. */
  datatype Stamp = Stamp(date: int, sep: char, secondOfDay: int)

  function DateOf(t: int): int {
    t / Day
  }

  /** How the report time is stored: ISO-8601 text, with 'T' between date and time. */
  function IsoStamp(t: int): Stamp {
    Stamp(DateOf(t), 'T', t % Day)
  }

  /** How the SQL engine renders `datetime('now', '-1 day')`: a space between date and time. */
  function SqlStamp(t: int): Stamp {
    Stamp(DateOf(t), ' ', t % Day)
  }

  predicate TextAfter(a: Stamp, b: Stamp) {
    a.date > b.date
    || (a.date == b.date && a.sep > b.sep)
    || (a.date == b.date && a.sep == b.sep && a.secondOfDay > b.secondOfDay)
  }

  /** As written: the stored ISO text is compared as text with the SQL
      engine's rendering of the cutoff. */
  predicate AsWrittenCounts(createdAt: int, now: int) {
    TextAfter(IsoStamp(createdAt), SqlStamp(now - Day))
  }

  /** The text comparison as written reduces to comparing calendar dates:
      on the cutoff's own date the 'T' sorts after the space whatever the
      time of day. */
  lemma AsWrittenComparesDates(createdAt: int, now: int)
    ensures AsWrittenCounts(createdAt, now) <==> DateOf(createdAt) >= DateOf(now - Day)
  {
  }

  /** Every report inside the intended window is also counted as written:
      the as-written window only ever lets more reports in. */
  lemma AsWrittenWidensWindow(createdAt: int, now: int)
    requires InWindow(createdAt, now)
    ensures AsWrittenCounts(createdAt, now)
  {
    assert DateOf(createdAt) >= DateOf(now - Day) by {
      DivMonotone(now - Day, createdAt);
    }
  }

  lemma DivMonotone(a: int, b: int)
    requires a <= b
    ensures a / Day <= b / Day
  {
  }

  /** A report 25 hours old still corroborates as written: created at 01:00
      on the first day, looked at 02:00 on the next day. */
  lemma StaleReportCountsAsWritten()
    ensures AsWrittenCounts(3600, Day + 7200)
    ensures !InWindow(3600, Day + 7200)
  {
    assert DateOf(3600) == 0;
    assert DateOf(Day + 7200 - Day) == 0;
  }

  /** As written, a past report can be counted for up to two days. */
  lemma AsWrittenReachesTwoDays(createdAt: int, now: int)
    requires createdAt <= now
    requires AsWrittenCounts(createdAt, now)
    ensures now - createdAt < 2 * Day
  {
    AsWrittenComparesDates(createdAt, now);
  }

  /** The corrected window counts a past report exactly when it is less than
      one day old. */
  lemma InWindowIsTrailingDay(createdAt: int, now: int)
    requires createdAt <= now
    ensures InWindow(createdAt, now) <==> now - createdAt < Day
  {
  }
}

=== FILE: uploader.dfy ===
/** The batched report uploader (extension/background.js): a FIFO queue of
    pending reports, a debounce timer modelled as the flag `armed`, and the
    address of the ingestion service. Timer expiry is the event TimerFire.
    The flush takes its batch off the queue before it first waits on the
    network, so each step below is atomic. */
module Uploader {

  /** Largest number of reports sent in one request. */
  const MaxBatch: nat := 100

  /** One ingestion request: the address it is posted to and its items. */
  datatype Batch<T> = Batch(url: string, items: seq<T>)

  datatype Queue<T> = Queue(pending: seq<T>, armed: bool, base: string)

  datatype Event<T> = Enqueue(item: T, baseUrl: string) | TimerFire

  /** The queue after a step and the requests the step sent. */
  datatype Outcome<T> = Outcome(queue: Queue<T>, sent: seq<Batch<T>>)

  function Idle<T>(): Queue<T> {
    Queue([], false, "")
  }

  /** The items of a sequence of requests, in sending order. */
  function Items<T>(batches: seq<Batch<T>>): seq<T>
    decreases |batches|
  {
    if |batches| == 0 then [] else batches[0].items + Items(batches[1..])
  }

  lemma {:induction false} ItemsAppend<T>(a: seq<Batch<T>>, b: seq<Batch<T>>)
    ensures Items(a + b) == Items(a) + Items(b)
    decreases |a|
  {
    if |a| > 0 {
      assert (a + b)[1..] == a[1..] + b;
      ItemsAppend(a[1..], b);
    } else {
      assert a + b == b;
    }
  }

  /** Every request carries between one and MaxBatch items. */
  predicate BatchesBounded<T>(batches: seq<Batch<T>>) {
    forall i :: 0 <= i < |batches| ==> 1 <= |batches[i].items| <= MaxBatch
  }

  /** flushIngest: disarm the timer; with an empty queue do nothing; with no
      ingestion address drop everything; otherwise send the first MaxBatch
      items (or all of them) as one request. A failed request is not
      retried, so sending and dropping leave the same queue. */
  function Flush<T>(q: Queue<T>): (r: Outcome<T>)
    ensures !r.queue.armed && r.queue.base == q.base
    ensures |r.sent| <= 1 && BatchesBounded(r.sent)
    ensures forall i :: 0 <= i < |r.sent| ==> r.sent[i].url == q.base + "/ingest"
    ensures q.base != "" ==> Items(r.sent) + r.queue.pending == q.pending
    ensures |q.pending| <= MaxBatch ==> r.queue.pending == []
    ensures q.base == "" ==> r.sent == [] && r.queue.pending == []
  {
    var disarmed := q.(armed := false);
    if |q.pending| == 0 then Outcome(disarmed, [])
    else if q.base == "" then Outcome(disarmed.(pending := []), [])
    else
      var n := if |q.pending| < MaxBatch then |q.pending| else MaxBatch;
      var batch := Batch(q.base + "/ingest", q.pending[..n]);
      assert Items([batch]) == q.pending[..n];
      Outcome(disarmed.(pending := q.pending[n..]), [batch])
  }

  /** enqueueIngest: ignored without an address; otherwise remember the
      address, append the item, flush at once when the queue is full, and
      arm the timer if it is not armed. */
  function EnqueueItem<T>(q: Queue<T>, item: T, baseUrl: string): (r: Outcome<T>)
    ensures baseUrl == "" ==> r == Outcome(q, [])
    ensures baseUrl != "" ==> Items(r.sent) + r.queue.pending == q.pending + [item]
    ensures baseUrl != "" ==> r.queue.base == baseUrl
    ensures |r.sent| <= 1 && BatchesBounded(r.sent)
    ensures baseUrl != "" && |q.pending| + 1 < MaxBatch ==>
      r.sent == [] && r.queue.pending == q.pending + [item] && r.queue.armed
    ensures baseUrl != "" && |q.pending| + 1 >= MaxBatch ==>
      |r.sent| == 1 && !r.queue.armed
  {
    if baseUrl == "" then Outcome(q, [])
    else
      var added := Queue(q.pending + [item], q.armed, baseUrl);
      if |added.pending| >= MaxBatch then Flush(added)
      else if !added.armed then Outcome(added.(armed := true), [])
      else Outcome(added, [])
  }

  function Step<T>(q: Queue<T>, e: Event<T>): Outcome<T> {
    match e
    case Enqueue(item, baseUrl) => EnqueueItem(q, item, baseUrl)
    case TimerFire => Flush(q)
  }

  /** The invariant the uploader keeps from an idle start: the queue is
      shorter than a full batch, the timer is armed exactly when something
      is pending, and pending items always have an address to go to. */
  predicate Inv<T>(q: Queue<T>) {
    && |q.pending| < MaxBatch
    && (q.armed <==> |q.pending| > 0)
    && (|q.pending| > 0 ==> q.base != "")
  }

  lemma IdleInv<T>()
    ensures Inv(Idle<T>())
  {
  }

  lemma StepPreservesInv<T>(q: Queue<T>, e: Event<T>)
    requires Inv(q)
    ensures Inv(Step(q, e).queue)
  {
  }

  /** The items an event sequence hands to the uploader: those enqueued with an address. */
  function Accepted<T>(events: seq<Event<T>>): seq<T>
    decreases |events|
  {
    if |events| == 0 then []
    else
      var e := events[0];
      (if e.Enqueue? && e.baseUrl != "" then [e.item] else []) + Accepted(events[1..])
  }

  /** Running a sequence of events. From a state satisfying the invariant,
      the invariant holds at the end, every request is bounded, and the
      items sent followed by the items still pending are exactly the pending
      items followed by the accepted ones, in order: nothing is lost,
      duplicated or reordered. */
  function Run<T>(q: Queue<T>, events: seq<Event<T>>): (r: Outcome<T>)
    ensures Inv(q) ==> Inv(r.queue)
    ensures Inv(q) ==> BatchesBounded(r.sent)
    ensures Inv(q) ==> Items(r.sent) + r.queue.pending == q.pending + Accepted(events)
    decreases |events|
  {
    if |events| == 0 then Outcome(q, [])
    else
      var first := Step(q, events[0]);
      var rest := Run(first.queue, events[1..]);
      var r := Outcome(rest.queue, first.sent + rest.sent);
      if Inv(q) then
        StepPreservesInv(q, events[0]);
        StepConserves(q, events);
        Chain(q.pending, first, rest, events);
        r
      else r
  }

  /** Joins the conservation facts of one step and of the remaining run. */
  lemma Chain<T>(before: seq<T>, first: Outcome<T>, rest: Outcome<T>, events: seq<Event<T>>)
    requires |events| > 0
    requires Items(first.sent) + first.queue.pending == before + Accepted(events[..1])
    requires Items(rest.sent) + rest.queue.pending == first.queue.pending + Accepted(events[1..])
    requires BatchesBounded(first.sent) && BatchesBounded(rest.sent)
    ensures Items(first.sent + rest.sent) + rest.queue.pending == before + Accepted(events)
    ensures BatchesBounded(first.sent + rest.sent)
  {
    ItemsAppend(first.sent, rest.sent);
    AcceptedSplit(events);
    Reassociate(Items(first.sent), first.queue.pending, Items(rest.sent), rest.queue.pending,
                before, Accepted(events[..1]), Accepted(events[1..]));
    BoundedAppend(first.sent, rest.sent);
  }

  lemma Reassociate<T>(a: seq<T>, mid: seq<T>, b: seq<T>, tail: seq<T>, before: seq<T>, acc1: seq<T>, acc2: seq<T>)
    requires a + mid == before + acc1
    requires b + tail == mid + acc2
    ensures (a + b) + tail == before + (acc1 + acc2)
  {
    calc {
      (a + b) + tail;
      a + (b + tail);
      a + (mid + acc2);
      (a + mid) + acc2;
      (before + acc1) + acc2;
    }
  }

  lemma AcceptedSplit<T>(events: seq<Event<T>>)
    requires |events| > 0
    ensures Accepted(events) == Accepted(events[..1]) + Accepted(events[1..])
  {
    assert events[..1][1..] == [];
  }

  lemma BoundedAppend<T>(a: seq<Batch<T>>, b: seq<Batch<T>>)
    requires BatchesBounded(a) && BatchesBounded(b)
    ensures BatchesBounded(a + b)
  {
    forall i | 0 <= i < |a + b|
      ensures 1 <= |(a + b)[i].items| <= MaxBatch
    {
      if i >= |a| {
        assert (a + b)[i] == b[i - |a|];
      }
    }
  }

  /** One step conserves items under the invariant. */
  lemma StepConserves<T>(q: Queue<T>, events: seq<Event<T>>)
    requires Inv(q) && |events| > 0
    ensures Items(Step(q, events[0]).sent) + Step(q, events[0]).queue.pending == q.pending + Accepted(events[..1])
    ensures BatchesBounded(Step(q, events[0]).sent)
  {
    var e := events[0];
    assert Accepted(events[..1]) == (if e.Enqueue? && e.baseUrl != "" then [e.item] else []) by {
      assert events[..1][0] == e;
      assert events[..1][1..] == [];
    }
    match e
    case TimerFire =>
      if |q.pending| == 0 {
        assert Flush(q).sent == [];
      }
    case Enqueue(item, baseUrl) =>
  }

  /** A timer expiry from a state satisfying the invariant sends everything pending in one request. */
  lemma TimerDrainsQueue<T>(q: Queue<T>)
    requires Inv(q) && |q.pending| > 0
    ensures Flush(q).queue == Queue([], false, q.base)
    ensures Flush(q).sent == [Batch(q.base + "/ingest", q.pending)]
  {
  }

  /** Enqueueing the MaxBatch-th item sends the full batch at once and disarms the timer. */
  lemma FullQueueFlushesAtOnce<T>(q: Queue<T>, item: T, baseUrl: string)
    requires Inv(q) && baseUrl != "" && |q.pending| == MaxBatch - 1
    ensures EnqueueItem(q, item, baseUrl).sent == [Batch(baseUrl + "/ingest", q.pending + [item])]
    ensures EnqueueItem(q, item, baseUrl).queue == Queue([], false, baseUrl)
  {
  }
}

=== FILE: worker.dfy ===
/** The edge worker's state machine (cloudflare_worker/src/worker.js):
    batch ingestion of reports, the read-through lookup of one product's
    lowest price, and the snapshot of all products. The report history and
    the current-lowest table are a sequence and a map; the response cache
    is a map keyed by product identifier. */
module Worker {
  import opened Wrappers
  import opened TrustScorer
  import opened PriceStore
  import opened Anonymizer

  /** Reports at or below this price are treated as scraping errors. */
  const PriceFloor: int := 10

  /** One reported item of an ingestion batch; a missing product identifier is None. */
  datatype Item = Item(prodId: Option<string>, price: int)

  /** The body of a lookup response; an unknown product has all fields null. */
  datatype Payload = Payload(prodId: string, minPrice: Option<int>, trust: Option<Trust>, updatedAt: Option<int>)

  datatype State = State(store: Store, history: seq<Report>, cache: map<string, Payload>)

  /** The result of one ingestion request: the new state and the reported count. */
  datatype IngestResult = IngestResult(state: State, count: nat)

  /** The result of a lookup: the new state and the reply, None when the
      request names no product (answered with an error status). */
  datatype LookupResult = LookupResult(state: State, reply: Option<Payload>)

  /** An entry of the snapshot: price and wire trust code. */
  datatype Entry = Entry(p: int, t: nat)

  /** The item filter: a product identifier that is present and non-empty
      and a price above the floor. */
  predicate Admitted(item: Item) {
    item.prodId.Some? && item.prodId.value != "" && item.price > PriceFloor
  }

  /** JavaScript truthiness of a nullable number. */
  predicate Truthy(n: Option<int>) {
    n.Some? && n.value != 0
  }

  /** The lookup body read from the table. */
  function PayloadOf(store: Store, prodId: string): (p: Payload)
    ensures p.prodId == prodId
    ensures prodId !in store <==> p.minPrice.None?
    ensures prodId !in store ==> p.trust.None? && p.updatedAt.None?
    ensures prodId in store ==>
      p.minPrice == Some(store[prodId].minPrice) && p.trust == Some(store[prodId].trust)
      && p.updatedAt == Some(store[prodId].updatedAt)
  {
    if prodId in store then
      var r := store[prodId];
      Payload(prodId, Some(r.minPrice), Some(r.trust), Some(r.updatedAt))
    else Payload(prodId, None, None, None)
  }

  /** The history row an admitted item writes. */
  function ReportOf(item: Item, token: Token, now: int): Report
    requires Admitted(item)
  {
    Report(item.prodId.value, item.price, token, now)
  }

  /** The trust level of an admitted item, classified after its own row is written. */
  function TrustFor(s: State, item: Item, token: Token, now: int): Trust
    requires Admitted(item)
  {
    Classify(s.history + [ReportOf(item, token, now)], item.prodId.value, item.price, now)
  }

  /** The item passes the filter and the conflict policy accepts it. */
  predicate Accepts(s: State, item: Item, token: Token, now: int) {
    Admitted(item)
    && ShouldUpdate(Get(s.store, item.prodId.value), item.price, TrustFor(s, item, token, now))
  }

  /** Processing one item: filter, append to history, classify, apply the
      policy, and on acceptance drop the product's cached lookup. */
  function IngestItem(s: State, item: Item, token: Token, now: int): (s': State)
    ensures !Admitted(item) ==> s' == s
    ensures s'.history == s.history + RowsOf(item, token, now)
    ensures Accepts(s, item, token, now) ==>
      s'.store == s.store[item.prodId.value := Record(item.price, TrustFor(s, item, token, now), now)]
      && s'.cache == s.cache - {item.prodId.value}
    ensures !Accepts(s, item, token, now) ==> s'.store == s.store && s'.cache == s.cache
  {
    if !Admitted(item) then s
    else
      var p := item.prodId.value;
      var h := s.history + [ReportOf(item, token, now)];
      var trust := Classify(h, p, item.price, now);
      if ShouldUpdate(Get(s.store, p), item.price, trust) then
        State(Upsert(s.store, p, item.price, trust, now), h, s.cache - {p})
      else
        State(s.store, h, s.cache)
  }

  /** The history rows one item appends: one row when it passes the filter, none otherwise. */
  function RowsOf(item: Item, token: Token, now: int): seq<Report> {
    if Admitted(item) then [ReportOf(item, token, now)] else []
  }

  /** The history rows a batch appends: one per admitted item, in order. */
  function Reports(items: seq<Item>, token: Token, now: int): seq<Report>
    decreases |items|
  {
    if |items| == 0 then [] else RowsOf(items[0], token, now) + Reports(items[1..], token, now)
  }

  /** An ingestion request: every item is processed in order with the
      request's reporter token and time; the count is the number of items
      that passed the filter, accepted by the policy or not. */
  function Ingest(s: State, items: seq<Item>, token: Token, now: int): (r: IngestResult)
    ensures r.state.history == s.history + Reports(items, token, now)
    ensures r.count == |Reports(items, token, now)|
    ensures r.count <= |items|
    decreases |items|
  {
    if |items| == 0 then IngestResult(s, 0)
    else
      var s1 := IngestItem(s, items[0], token, now);
      var rest := Ingest(s1, items[1..], token, now);
      AppendAssoc(s.history, RowsOf(items[0], token, now), Reports(items[1..], token, now));
      IngestResult(rest.state, rest.count + if Admitted(items[0]) then 1 else 0)
  }

  lemma AppendAssoc(a: seq<Report>, b: seq<Report>, c: seq<Report>)
    ensures (a + b) + c == a + (b + c)
  {
  }

  /** Every row a batch appends carries the request's token and time. */
  lemma {:induction false} ReportsCarryToken(items: seq<Item>, token: Token, now: int)
    ensures forall r :: r in Reports(items, token, now) ==> r.token == token && r.createdAt == now
    decreases |items|
  {
    if |items| > 0 {
      ReportsCarryToken(items[1..], token, now);
    }
  }

  /** One ingestion request as it reaches the worker: its items, its
      connecting-address header and the clock when it is handled. */
  datatype Request = Request(items: seq<Item>, header: Option<string>, now: int)

  /** Serving ingestion requests in arrival order. Each request's reporter
      token is derived from its address header. The history only grows. */
  function Serve(s: State, digest: string -> string, reqs: seq<Request>): (s': State)
    ensures s'.history == s.history + Served(digest, reqs)
    ensures s.history <= s'.history
    decreases |reqs|
  {
    if |reqs| == 0 then s
    else
      var req := reqs[0];
      var s1 := Ingest(s, req.items, ReporterToken(digest, req.header), req.now).state;
      var rest := Serve(s1, digest, reqs[1..]);
      AppendAssoc(s.history, Reports(req.items, ReporterToken(digest, req.header), req.now), Served(digest, reqs[1..]));
      rest
  }

  /** The history rows a sequence of requests appends: each request's
      admitted items, with the token of its own address header and its own
      time, request after request. */
  function Served(digest: string -> string, reqs: seq<Request>): seq<Report>
    decreases |reqs|
  {
    if |reqs| == 0 then []
    else
      var req := reqs[0];
      Reports(req.items, ReporterToken(digest, req.header), req.now) + Served(digest, reqs[1..])
  }

  /** The lookup path: a missing identifier is refused; a cached reply is
      returned as is; otherwise the table is read, and the reply is cached
      only when its price is truthy. */
  function Lookup(s: State, prodId: Option<string>): (r: LookupResult)
    ensures prodId.None? || prodId.value == "" ==> r == LookupResult(s, None)
    ensures prodId.Some? && prodId.value != "" && prodId.value in s.cache ==> r.reply == Some(s.cache[prodId.value]) && r.state == s
    ensures prodId.Some? && prodId.value != "" && prodId.value !in s.cache ==>
      r.reply == Some(PayloadOf(s.store, prodId.value))
      && (prodId.value in r.state.cache <==> Truthy(PayloadOf(s.store, prodId.value).minPrice))
    ensures r.state.store == s.store && r.state.history == s.history
    ensures forall q :: q in s.cache ==> q in r.state.cache && r.state.cache[q] == s.cache[q]
    ensures forall q :: q in r.state.cache && q !in s.cache ==>
      prodId == Some(q) && Truthy(r.state.cache[q].minPrice)
  {
    if prodId.None? || prodId.value == "" then LookupResult(s, None)
    else
      var p := prodId.value;
      if p in s.cache then LookupResult(s, Some(s.cache[p]))
      else
        var payload := PayloadOf(s.store, p);
        if Truthy(payload.minPrice) then LookupResult(s.(cache := s.cache[p := payload]), Some(payload))
        else LookupResult(s, Some(payload))
  }

  /** The snapshot body: every product with a record, with its price and trust code. */
  function Snapshot(store: Store): (m: map<string, Entry>)
    ensures m.Keys == store.Keys
    ensures forall p :: p in m ==> m[p] == Entry(store[p].minPrice, store[p].trust.Code())
  {
    map p | p in store :: Entry(store[p].minPrice, store[p].trust.Code())
  }

  /** Every cached reply equals what the table would give now, and carries a price. */
  predicate CacheCoherent(s: State) {
    forall p :: p in s.cache ==> s.cache[p] == PayloadOf(s.store, p) && Truthy(s.cache[p].minPrice)
  }

  /** Every stored price passed the floor. */
  predicate PricesAboveFloor(s: State) {
    forall p :: p in s.store ==> s.store[p].minPrice > PriceFloor
  }

  predicate Valid(s: State) {
    CacheCoherent(s) && PricesAboveFloor(s)
  }

  function Empty(): State {
    State(map[], [], map[])
  }

  lemma EmptyValid()
    ensures Valid(Empty())
  {
  }

  /** Each ingested item keeps the cache coherent and the prices above the floor. */
  lemma IngestItemPreservesValid(s: State, item: Item, token: Token, now: int)
    requires Valid(s)
    ensures Valid(IngestItem(s, item, token, now))
  {
    var s' := IngestItem(s, item, token, now);
    if Accepts(s, item, token, now) {
      var p := item.prodId.value;
      forall q | q in s'.cache
        ensures s'.cache[q] == PayloadOf(s'.store, q) && Truthy(s'.cache[q].minPrice)
      {
        assert q != p && q in s.cache;
        assert PayloadOf(s'.store, q) == PayloadOf(s.store, q);
      }
    }
  }

  lemma {:induction false} IngestPreservesValid(s: State, items: seq<Item>, token: Token, now: int)
    requires Valid(s)
    ensures Valid(Ingest(s, items, token, now).state)
    decreases |items|
  {
    if |items| > 0 {
      IngestItemPreservesValid(s, items[0], token, now);
      IngestPreservesValid(IngestItem(s, items[0], token, now), items[1..], token, now);
    }
  }

  /** A lookup keeps the state valid. */
  lemma LookupPreservesValid(s: State, prodId: Option<string>)
    requires Valid(s)
    ensures Valid(Lookup(s, prodId).state)
  {
  }

  /** The cache is transparent: on a valid state a lookup answers exactly
      what the table holds, hit or miss. */
  lemma LookupReadsThrough(s: State, prodId: string)
    requires Valid(s) && prodId != ""
    ensures Lookup(s, Some(prodId)).reply == Some(PayloadOf(s.store, prodId))
  {
  }

  /** "No data" is never cached: looking up an unknown product leaves the state as it was. */
  lemma UnknownProductNotCached(s: State, prodId: string)
    requires Valid(s) && prodId != "" && prodId !in s.store
    ensures Lookup(s, Some(prodId)).state == s
    ensures Lookup(s, Some(prodId)).reply == Some(Payload(prodId, None, None, None))
  {
  }

  /** After an accepted update the next lookup of that product returns the
      new record, never a reply cached before the update. */
  lemma LookupAfterAcceptedUpdate(s: State, item: Item, token: Token, now: int)
    requires Valid(s) && Accepts(s, item, token, now)
    ensures
      var s' := IngestItem(s, item, token, now);
      var p := item.prodId.value;
      Lookup(s', Some(p)).reply
        == Some(Payload(p, Some(item.price), Some(TrustFor(s, item, token, now)), Some(now)))
  {
    IngestItemPreservesValid(s, item, token, now);
  }

  /** One item leaves every record at least as good as before, and touches
      no other product's record or cached reply. */
  lemma IngestItemMonotone(s: State, item: Item, token: Token, now: int)
    ensures
      var s' := IngestItem(s, item, token, now);
      (forall p :: p in s.store ==> p in s'.store && NoWorse(s'.store[p], s.store[p]))
      && (forall q :: Admitted(item) && q != item.prodId.value ==>
            (q in s'.store <==> q in s.store) && (q in s.store ==> s'.store[q] == s.store[q])
            && (q in s'.cache <==> q in s.cache) && (q in s.cache ==> s'.cache[q] == s.cache[q]))
  {
  }

  /** Across a whole batch, no product's price goes up, and at an unchanged
      price its trust never goes from Trusted back to Unverified. */
  lemma {:induction false} IngestMonotone(s: State, items: seq<Item>, token: Token, now: int)
    ensures
      var s' := Ingest(s, items, token, now).state;
      forall p :: p in s.store ==> p in s'.store && NoWorse(s'.store[p], s.store[p])
    decreases |items|
  {
    if |items| > 0 {
      var s1 := IngestItem(s, items[0], token, now);
      IngestItemMonotone(s, items[0], token, now);
      IngestMonotone(s1, items[1..], token, now);
      var s' := Ingest(s, items, token, now).state;
      forall p | p in s.store
        ensures p in s'.store && NoWorse(s'.store[p], s.store[p])
      {
        NoWorseTransitive(s'.store[p], s1.store[p], s.store[p]);
      }
    }
  }

  /** Over any sequence of requests the state stays valid. */
  lemma {:induction false} ServePreservesValid(s: State, digest: string -> string, reqs: seq<Request>)
    requires Valid(s)
    ensures Valid(Serve(s, digest, reqs))
    decreases |reqs|
  {
    if |reqs| > 0 {
      var req := reqs[0];
      var token := ReporterToken(digest, req.header);
      IngestPreservesValid(s, req.items, token, req.now);
      ServePreservesValid(Ingest(s, req.items, token, req.now).state, digest, reqs[1..]);
    }
  }

  /** Over any sequence of requests no stored price goes up, and at an
      unchanged price trust never goes from Trusted back to Unverified. */
  lemma {:induction false} ServeMonotone(s: State, digest: string -> string, reqs: seq<Request>)
    ensures
      var s' := Serve(s, digest, reqs);
      forall p :: p in s.store ==> p in s'.store && NoWorse(s'.store[p], s.store[p])
    decreases |reqs|
  {
    if |reqs| > 0 {
      var req := reqs[0];
      var token := ReporterToken(digest, req.header);
      var s1 := Ingest(s, req.items, token, req.now).state;
      IngestMonotone(s, req.items, token, req.now);
      ServeMonotone(s1, digest, reqs[1..]);
      var s' := Serve(s, digest, reqs);
      forall p | p in s.store
        ensures p in s'.store && NoWorse(s'.store[p], s.store[p])
      {
        NoWorseTransitive(s'.store[p], s1.store[p], s.store[p]);
      }
    }
  }

  /** Re-ingesting the pair a product already holds changes neither the
      table nor the cache; only the history grows. */
  lemma ReingestCurrentIsNoOp(s: State, item: Item, token: Token, now: int)
    requires Admitted(item) && item.prodId.value in s.store
    requires s.store[item.prodId.value].minPrice == item.price
    requires s.store[item.prodId.value].trust == TrustFor(s, item, token, now)
    ensures IngestItem(s, item, token, now).store == s.store
    ensures IngestItem(s, item, token, now).cache == s.cache
  {
  }

  /** The snapshot agrees with what a lookup of the same product returns. */
  lemma SnapshotAgreesWithLookup(s: State, prodId: string)
    requires Valid(s) && prodId != "" && prodId in Snapshot(s.store)
    ensures
      var e := Snapshot(s.store)[prodId];
      var reply := Lookup(s, Some(prodId)).reply;
      reply.Some? && reply.value.minPrice == Some(e.p) && reply.value.trust.value.Code() == e.t
  {
    LookupReadsThrough(s, prodId);
  }

  /** Worked scenarios of crowd verification: a first report
      is Unverified, a second reporter at the same price makes it Trusted, a
      higher price is rejected, and a lower price replaces the record with
      its trust level reset. */
  lemma Scenarios()
    ensures
      var x := Item(Some("X"), 500);
      var a := IngestItem(Empty(), x, "r1", 0);
      var b := IngestItem(a, x, "r2", 60);
      var c := IngestItem(b, Item(Some("X"), 600), "r4", 120);
      var d := IngestItem(b, Item(Some("X"), 400), "r3", 120);
      && a.store["X"] == Record(500, Unverified, 0)
      && b.store["X"] == Record(500, Trusted, 60)
      && c.store == b.store
      && d.store["X"] == Record(400, Unverified, 120)
  {
    var x := Item(Some("X"), 500);
    var a := IngestItem(Empty(), x, "r1", 0);
    LoneReporterUnverified([], ReportOf(x, "r1", 0), 0);
    var b := IngestItem(a, x, "r2", 60);
    SecondReporterTrusted(a.history, ReportOf(x, "r2", 60), 60, 0);
    var y := Item(Some("X"), 400);
    LoneReporterUnverified(b.history, ReportOf(y, "r3", 120), 120);
  }
}

=== FILE: wrappers.dfy ===
/** The optional-value wrapper used throughout the model for JavaScript's
    `null`/`undefined` and for absent rows and map entries. */
module Wrappers {

  /** `None` stands for an absent value, `Some(v)` for a present one. */
  datatype Option<+T> = None | Some(value: T) {

    /** The value, or `default` when absent. */
    function GetOr(default: T): T {
      match this
      case Some(v) => v
      case None => default
    }
  }
}
